=== FILE: README.md ===
# The `code` command launcher of claude-code-router, in Dafny

`executeCodeCommand` starts the Claude Code CLI as a child process that talks
to the router's local service. Before it touches the system, it derives a
launch plan from three inputs: the router configuration, the caller's
argument list and the parent process environment. The plan holds:

- the child's environment. It has seven base keys, the four non-interactive
  markers when `NON_INTERACTIVE_MODE` is truthy, and `ANTHROPIC_SMALL_FAST_MODEL`
  when that is configured. All of it sits on top of the parent's environment.
- a `--settings` payload. Its `env` is a snapshot of the seven base keys. It
  also carries a `statusLine` descriptor when the status line is enabled.
- the child's argument list: the caller's arguments followed by
  `--settings <payload>`.
- the executable: the configured `CLAUDE_PATH`, else the parent's `CLAUDE_PATH`,
  else `claude`.
- the standard-stream wiring. Standard input is piped and ended in
  non-interactive mode. Otherwise all three streams are inherited.

Around the spawn the launcher takes a reference on the router service. It
gives the reference back on each of the three paths that end the parent with
an exit code: the executable is not found, the child reports a spawn error,
or the child closes. There is a fourth path. `spawn` can throw before it
returns, for errors Node does not defer to the child's `error` event. In that
case the function leaves before any handler is registered, and its promise
rejects. The reference stays taken and the launcher itself calls no exit.

The project has four modules:

- `Js` (`js.dfy`): optional configuration fields and JavaScript truthiness.
  `||` falls back on `0` and `""`; `??` falls back only on a missing value.
- `Decimal` (`decimal.dfy`): exact decimal rendering of integers, and a
  canonical parser proved to be its inverse in both directions. The rendering
  is what `String(n)` gives for magnitudes below 2^53. The base URL and
  `API_TIMEOUT_MS` are stated through that parser.
- `LaunchPlan` (`launch_plan.dfy`): the configuration record and every piece
  of the plan.
- `Lifecycle` (`lifecycle.dfy`): the four outcomes, the effects each outcome
  produces in order, the reference count those effects leave, and the exit
  code when there is one.

The configuration, the parent environment and the outcome of the lookup and
the spawn are parameters. Nothing reads a file, runs a shell or spawns a process.

## Model

| member | source | states |
|---|---|---|
| Decimal.NatToString | src/utils/codeCommand.ts:18 | the rendered port is a canonical numeral (digits only, no leading zero), starting with '0' only for zero |
| Decimal.IntToString | src/utils/codeCommand.ts:18-22 | the port and timeout text is non-empty; it starts with '-' exactly for a negative number, and the rest is a canonical numeral with no leading zero (a lone "0" only for zero) |
| Decimal.ParseIntOfIntToString | src/utils/codeCommand.ts:18-22 | parsing the rendering of any integer gives the integer back |
| Decimal.IntToStringOfParseInt | src/utils/codeCommand.ts:18-22 | any string the parser accepts is exactly the rendering of the number it yields |
| Decimal.ParseIntIffIntToString | src/utils/codeCommand.ts:18-22 | a string parses to n if and only if it is n's rendering, so the port and timeout renderings lose nothing |
| LaunchPlan.BaseEnv | src/utils/codeCommand.ts:15-23 | the environment is first built with exactly the seven base keys |
| LaunchPlan.BaseUrl | src/utils/codeCommand.ts:18 | the base URL is the loopback prefix followed by a numeral that reads back as exactly the given port |
| LaunchPlan.BaseUrlNamesPort | src/utils/codeCommand.ts:14-18 | the base URL names `PORT` when that is truthy and 3456 when `PORT` is missing or 0, so the URL never names port 0 |
| LaunchPlan.TimeoutReadsBack | src/utils/codeCommand.ts:22 | `API_TIMEOUT_MS` reads back as the configured value whenever one is present (0 included), else as 600000 |
| LaunchPlan.CredentialsAndFlags | src/utils/codeCommand.ts:16-21 | the token is `APIKEY` unless it is missing or empty, else "test", and never empty. `ANTHROPIC_API_KEY` is always "" whatever the config. `NO_PROXY=127.0.0.1`, `DISABLE_TELEMETRY=true` and `DISABLE_COST_WARNINGS=true` are always set |
| LaunchPlan.Settings | src/utils/codeCommand.ts:24-33 | the settings env has exactly the seven base keys; a status line is present if and only if `StatusLine.enabled` is truthy, and it is then {command, "ccr statusline", 0} |
| LaunchPlan.LaunchArgs | src/utils/codeCommand.ts:34 | the child's arguments are the caller's, unchanged and in order, followed by exactly `--settings` and the settings payload |
| LaunchPlan.SplitLaunchArgsInverse | src/utils/codeCommand.ts:34 | splitting the child's argument list recovers both the caller's arguments and the settings |
| LaunchPlan.Additions | src/utils/codeCommand.ts:37-47 | the keys assigned after serialization are exactly the four markers (when non-interactive) and the small fast model (when truthy), with the source's values |
| LaunchPlan.ChildEnv | src/utils/codeCommand.ts:15-47 | the spawn-time environment has the base keys plus the added ones; added keys carry their assigned values and base keys keep their values |
| LaunchPlan.NonInteractiveMarkers | src/utils/codeCommand.ts:37-42 | non-interactive mode sets CI=true, FORCE_COLOR=0, NODE_NO_READLINE=1 and TERM=dumb; otherwise none of those keys is set |
| LaunchPlan.SmallFastModelSetWhenTruthy | src/utils/codeCommand.ts:45-47 | `ANTHROPIC_SMALL_FAST_MODEL` is set if and only if the configured value is truthy, and then to that value |
| LaunchPlan.SettingsEnvIsSnapshot | src/utils/codeCommand.ts:24-47 | the serialized env never holds a marker or the small fast model; it agrees with the spawn-time env on each of its keys; the two differ by exactly the added keys, and are equal exactly when nothing was added |
| LaunchPlan.SpawnEnv | src/utils/codeCommand.ts:79 | the child's environment has the parent's keys plus the launcher's; the launcher's value wins on every key it sets, and the parent's value is kept on every other key |
| LaunchPlan.SpawnEnvMasksParent | src/utils/codeCommand.ts:79 | whatever the parent holds, the child gets a blank `ANTHROPIC_API_KEY` and the launcher's token and base URL; in interactive mode the parent's own `CI`, `FORCE_COLOR`, `NODE_NO_READLINE` and `TERM` pass through unchanged |
| LaunchPlan.ExecutablePath | src/utils/codeCommand.ts:53 | the executable is the first non-empty candidate among config `CLAUDE_PATH`, parent `CLAUDE_PATH` and "claude", so it is never empty |
| LaunchPlan.Stdio | src/utils/codeCommand.ts:71-73 | standard input is piped if and only if the mode is non-interactive; stdout and stderr are always inherited; outside that mode the option is plain `inherit` |
| LaunchPlan.MakePlan | src/utils/codeCommand.ts:24-87 | the plan is assembled from the pieces above, so it carries their guarantees. Its settings are `Settings`, its arguments are `LaunchArgs` and split back into the caller's arguments and the settings. Its env is `SpawnEnv` and extends the settings env. Its executable is `ExecutablePath` and non-empty. Its stdio is `Stdio`. Standard input is ended exactly in non-interactive mode, and exactly when it is piped |
| Lifecycle.ExitCode | src/utils/codeCommand.ts:67-102 | the parent exits 0 exactly when the child closed with a missing or zero code; a non-zero child code passes through verbatim; a failed lookup and a reported spawn error exit 1; a throw from `spawn` leads to no exit |
| Lifecycle.Run | src/utils/codeCommand.ts:50-102 | the reference is taken first, before the lookup. The lookup happens there and nowhere else. When the executable is found, `spawn` is called right after the lookup, and at no other point; when it is not found, `spawn` is never called. A piped standard input is ended right after `spawn` returns, before any event is handled. On a close, the reference is given back and then the service is shut down, just before the exit. The run ends in the exit `ExitCode` gives and exits nowhere earlier. When `spawn` throws, the run stops at the spawn with no exit |
| Lifecycle.RunContents | src/utils/codeCommand.ts:50-102 | every run has exactly one increment. It has exactly one decrement, except when `spawn` throws, which leaves none. `spawn` is called once when the executable was found, and never otherwise; every spawn is of the plan's executable. Stdin is ended exactly when the mode is non-interactive and `spawn` returned. The service is closed only after a normal close |
| Lifecycle.ReferenceCountBalanced | src/utils/codeCommand.ts:49-102 | on every outcome that exits, the reference count ends where it started; after a throw from `spawn` it ends one above. It never drops below the start on the way, and is one above the start when `spawn` is called. After a close, the count is back at the start when the service is shut down |
| Lifecycle.ReleasedBeforeShutdown | src/utils/codeCommand.ts:98-101 | on a close, the effect just before the exit is the service shutdown, and every effect before it, the decrement included, already brings the count back to its start |
| Lifecycle.ExecuteCodeCommand | src/utils/codeCommand.ts:11-102 | one whole invocation uses the plan `MakePlan` builds and performs the effects `Run` gives. The count it reports is the one those effects leave. That count is the start again on every path that exits, and one above after a throw from `spawn`. It never drops below the start on the way. An invocation that exits ends in the exit it reports. The exit code is 1 exactly for a failure or a child exiting 1, and otherwise follows `code \|\| 0`. `spawn` is called once exactly when the executable was found, through `Run`, which allows a spawn only right after the lookup. The child's arguments carry the caller's arguments and the settings |

## Left out

- Reading the configuration file (`readConfigFile`, src/utils/codeCommand.ts:13) is file I/O. The configuration is an input record with optional fields.
- Configuration values of an unexpected JSON type are not modelled. Examples are `PORT` given as a string, or `APIKEY` given as a number. Each field has the type the launcher expects.
- Decimal.IntToString: renders the exact decimal digits of an integer. This agrees with JavaScript's `String(n)` only for magnitudes below 2^53. Above that a configured `PORT` or `API_TIMEOUT_MS` is a double. JavaScript then prints the shortest digits that identify it and pads with zeros, for example 2^66 prints as 73786976294838210000. From 10^21 up it uses exponent notation. Neither is modelled, so `BaseUrlNamesPort` and `TimeoutReadsBack` describe the source only below 2^53. Fractions and NaN are not modelled either, because numbers are integers here.
- The exact `JSON.stringify` text of the settings is not modelled. The settings argument is an `Arg.SettingsJson` element holding the structured object.
- The executable lookup (`execSync("command -v ...")`), `spawn`, stream handling and event registration are abstracted to an `Outcome` parameter. This covers src/utils/codeCommand.ts:56-57 and 75-102. The shell interpretation of the unquoted path is not modelled. Neither is the race between lookup and spawn. Which errors make `spawn` throw rather than report through `error` is Node's concern; the model only distinguishes the two as outcomes.
- `closeService` and the internals of `incrementReferenceCount` and `decrementReferenceCount` live in other modules that are not part of this model. The counter is an integer that the `Increment` and `Decrement` effects change. `closeService` is the `CloseService` effect.
- Console guidance and diagnostics (src/utils/codeCommand.ts:59-66, 90-93) are user output only.
- The source appends `--settings` to the caller's own array with `push`, so it mutates that array. The model returns a new sequence instead.
- `process.exit` behaviour for codes outside 0..255 is not modelled. The exit code is the integer passed to it.
- `ui/vite.config.ts` is a declarative bundler manifest with no runtime logic.

=== FILE: decimal.dfy ===
/** Exact decimal rendering of integers, together with the canonical parser
    that inverts it. For integers of magnitude below 2^53 this is the text
    JavaScript's `String(n)` and template literals produce; beyond that a
    JavaScript number is a double and prints differently, which this module
    does not model. The launcher renders the port into the base URL and the
    timeout into `API_TIMEOUT_MS`; the parser is the inverse that shows no
    information is lost in either rendering. */
module Decimal {
  import opened Js

  predicate IsDigit(ch: char) {
    '0' <= ch <= '9'
  }

  function DigitChar(d: nat): (ch: char)
    requires d < 10
    ensures IsDigit(ch)
  {
    (48 + d) as char
  }

  function DigitValue(ch: char): (d: nat)
    requires IsDigit(ch)
    ensures d < 10
    ensures DigitChar(d) == ch
  {
    ch as int - 48
  }

  predicate AllDigits(s: string) {
    forall i :: 0 <= i < |s| ==> IsDigit(s[i])
  }

  /** A canonical numeral: digits only, at least one, and no leading zero
      unless the numeral is "0" itself. */
  predicate Canonical(s: string) {
    |s| > 0 && AllDigits(s) && (s[0] == '0' ==> |s| == 1)
  }

  /** The shortest decimal numeral of `n`. */
  function NatToString(n: nat): (s: string)
    ensures Canonical(s)
    ensures s[0] == '0' <==> n == 0
    ensures |s| == 1 <==> n < 10
  {
    if n < 10 then [DigitChar(n)] else NatToString(n / 10) + [DigitChar(n % 10)]
  }

  /** The number a numeral denotes, most significant digit first. */
  function ValueOf(s: string): nat
    requires |s| > 0 && AllDigits(s)
  {
    if |s| == 1 then DigitValue(s[0])
    else 10 * ValueOf(s[..|s| - 1]) + DigitValue(s[|s| - 1])
  }

  /** The exact decimal numeral of `n`: a minus sign before the magnitude
      when negative. It agrees with `String(n)` for |n| < 2^53. */
  function IntToString(n: int): (s: string)
    ensures |s| > 0
    ensures s[0] == '-' <==> n < 0
    ensures n >= 0 ==> Canonical(s)
    ensures n < 0 ==> Canonical(s[1..]) && s[1] != '0'
  {
    if n < 0 then "-" + NatToString(-n) else NatToString(n)
  }

  /** Reads back exactly the numerals `IntToString` writes: an optional minus
      sign (never before a zero), then a canonical numeral. */
  function ParseInt(s: string): Option<int> {
    if |s| > 0 && s[0] == '-' then
      if Canonical(s[1..]) && s[1] != '0' then
        var magnitude: int := ValueOf(s[1..]); Some(-magnitude)
      else None
    else if Canonical(s) then Some(ValueOf(s))
    else None
  }

  lemma {:induction false} ValueOfNatToString(n: nat)
    ensures ValueOf(NatToString(n)) == n
  {
    if n >= 10 {
      var s := NatToString(n);
      ValueOfNatToString(n / 10);
      assert s[..|s| - 1] == NatToString(n / 10);
      assert s[|s| - 1] == DigitChar(n % 10);
    }
  }

  /** A numeral that does not start with '0' denotes a positive number, and
      one of two or more digits denotes at least ten. */
  lemma {:induction false} LeadingDigitBound(s: string)
    requires |s| > 0 && AllDigits(s) && s[0] != '0'
    ensures ValueOf(s) >= 1
    ensures |s| >= 2 ==> ValueOf(s) >= 10
  {
    if |s| >= 2 {
      LeadingDigitBound(s[..|s| - 1]);
    }
  }

  lemma {:induction false} NatToStringOfValue(s: string)
    requires Canonical(s)
    ensures NatToString(ValueOf(s)) == s
  {
    if |s| >= 2 {
      var p := s[..|s| - 1];
      var d := DigitValue(s[|s| - 1]);
      assert Canonical(p);
      LeadingDigitBound(p);
      NatToStringOfValue(p);
      var v := ValueOf(s);
      assert v == 10 * ValueOf(p) + d;
      assert v / 10 == ValueOf(p) && v % 10 == d;
      assert s == p + [s[|s| - 1]];
    }
  }

  /** Rendering then parsing gives the number back. */
  lemma ParseIntOfIntToString(n: int)
    ensures ParseInt(IntToString(n)) == Some(n)
  {
    var s := IntToString(n);
    if n < 0 {
      assert s[1..] == NatToString(-n);
      ValueOfNatToString(-n);
    } else {
      ValueOfNatToString(n);
    }
  }

  /** Parsing succeeds only on a numeral that rendering produces. */
  lemma IntToStringOfParseInt(s: string, n: int)
    requires ParseInt(s) == Some(n)
    ensures IntToString(n) == s
  {
    if |s| > 0 && s[0] == '-' {
      NatToStringOfValue(s[1..]);
      LeadingDigitBound(s[1..]);
      assert s == "-" + s[1..];
    } else {
      NatToStringOfValue(s);
    }
  }

  /** Together: a string parses to `n` exactly when it is `n`'s rendering,
      so rendering is injective and the parser is its inverse. */
  lemma ParseIntIffIntToString(s: string, n: int)
    ensures ParseInt(s) == Some(n) <==> IntToString(n) == s
  {
    if ParseInt(s) == Some(n) {
      IntToStringOfParseInt(s, n);
    }
    if IntToString(n) == s {
      ParseIntOfIntToString(n);
    }
  }
}

=== FILE: js.dfy ===
/** The JavaScript value semantics the launcher leans on: configuration fields
    that may be absent (`undefined`/`null`), truthiness, and the two fallback
    operators `||` and `??`, which treat `0` and `""` differently. */
module Js {

  /** A configuration field that may be missing. `None` stands for both
      `undefined` and `null`: the launcher never tells them apart. */
  datatype Option<+T> = None | Some(value: T)

  /** Truthiness of an optional number: missing and `0` are falsy
      (NaN is not modelled: numbers are integers here). */
  predicate TruthyNumber(v: Option<int>) {
    v.Some? && v.value != 0
  }

  /** Truthiness of an optional string: missing and `""` are falsy. */
  predicate TruthyString(v: Option<string>) {
    v.Some? && v.value != ""
  }

  /** Truthiness of an optional boolean: missing and `false` are falsy. */
  predicate TruthyBool(v: Option<bool>) {
    v.Some? && v.value
  }

  /** `v || fallback` on a number. */
  function OrNumber(v: Option<int>, fallback: int): int {
    if TruthyNumber(v) then v.value else fallback
  }

  /** `v || fallback` on a string. */
  function OrString(v: Option<string>, fallback: string): string {
    if TruthyString(v) then v.value else fallback
  }

  /** `v ?? fallback`: only a missing value falls back, `0` and `""` are kept. */
  function Coalesce<T>(v: Option<T>, fallback: T): T {
    if v.Some? then v.value else fallback
  }
}

=== FILE: launch_plan.dfy ===
/** The launch plan of the `code` command: from the router's configuration,
    the caller's arguments and the parent process environment, everything the
    launcher hands to the child process — its environment, its argument list
    with the `--settings` payload, the executable it runs and how its standard
    streams are wired. Reading the configuration file is not modelled: the
    configuration is an input. */
module LaunchPlan {
  import opened Js
  import Decimal

  datatype StatusLineConfig = StatusLineConfig(enabled: Option<bool>)

  /** The configuration fields the launcher reads; each may be missing. */
  datatype Config = Config(
    port: Option<int>,
    apiKey: Option<string>,
    apiTimeoutMs: Option<int>,
    statusLine: Option<StatusLineConfig>,
    nonInteractiveMode: Option<bool>,
    smallFastModel: Option<string>,
    claudePath: Option<string>)

  const DefaultPort := 3456
  const DefaultAuthToken := "test"
  const DefaultTimeoutMs := 600000
  const DefaultExecutable := "claude"
  const LoopbackUrlPrefix := "http://127.0.0.1:"

  const AuthTokenKey := "ANTHROPIC_AUTH_TOKEN"
  const ApiKeyKey := "ANTHROPIC_API_KEY"
  const BaseUrlKey := "ANTHROPIC_BASE_URL"
  const NoProxyKey := "NO_PROXY"
  const DisableTelemetryKey := "DISABLE_TELEMETRY"
  const DisableCostWarningsKey := "DISABLE_COST_WARNINGS"
  const ApiTimeoutKey := "API_TIMEOUT_MS"
  const CiKey := "CI"
  const ForceColorKey := "FORCE_COLOR"
  const NodeNoReadlineKey := "NODE_NO_READLINE"
  const TermKey := "TERM"
  const SmallFastModelKey := "ANTHROPIC_SMALL_FAST_MODEL"
  const ClaudePathKey := "CLAUDE_PATH"

  /** The seven keys the environment is built with. */
  const BaseKeys: set<string> := {
    AuthTokenKey, ApiKeyKey, BaseUrlKey, NoProxyKey,
    DisableTelemetryKey, DisableCostWarningsKey, ApiTimeoutKey
  }

  /** The keys that switch off terminal interaction in non-interactive mode. */
  const NonInteractiveKeys: set<string> := {CiKey, ForceColorKey, NodeNoReadlineKey, TermKey}

  predicate NonInteractive(c: Config) {
    TruthyBool(c.nonInteractiveMode)
  }

  /** `config?.StatusLine?.enabled` is truthy. */
  predicate StatusLineEnabled(c: Config) {
    c.statusLine.Some? && TruthyBool(c.statusLine.value.enabled)
  }

  /** `config.PORT || 3456`. */
  function Port(c: Config): int {
    OrNumber(c.port, DefaultPort)
  }

  /** The port a loopback base URL points at, if the URL is one. */
  function UrlPort(url: string): Option<int> {
    if LoopbackUrlPrefix <= url then Decimal.ParseInt(url[|LoopbackUrlPrefix|..]) else None
  }

  /** `http://127.0.0.1:${port}`: a loopback URL that names exactly `port`. */
  function BaseUrl(port: int): (url: string)
    ensures UrlPort(url) == Some(port)
  {
    var url := LoopbackUrlPrefix + Decimal.IntToString(port);
    Decimal.ParseIntOfIntToString(port);
    assert url[|LoopbackUrlPrefix|..] == Decimal.IntToString(port);
    url
  }

  /** The environment as first built, before any conditional key. */
  function BaseEnv(c: Config): (env: map<string, string>)
    ensures env.Keys == BaseKeys
  {
    map[
      AuthTokenKey := OrString(c.apiKey, DefaultAuthToken),
      ApiKeyKey := "",
      BaseUrlKey := BaseUrl(Port(c)),
      NoProxyKey := "127.0.0.1",
      DisableTelemetryKey := "true",
      DisableCostWarningsKey := "true",
      ApiTimeoutKey := Decimal.IntToString(Coalesce(c.apiTimeoutMs, DefaultTimeoutMs))
    ]
  }

  /** The base URL points at the configured port, and a missing or zero
      port means 3456, so the URL never names port 0. */
  lemma BaseUrlNamesPort(c: Config)
    ensures UrlPort(BaseEnv(c)[BaseUrlKey]) == Some(if TruthyNumber(c.port) then c.port.value else DefaultPort)
    ensures UrlPort(BaseEnv(c)[BaseUrlKey]) != Some(0)
  {
  }

  /** The timeout reads back as the configured value whenever one is present,
      0 included, and as 600000 otherwise. */
  lemma TimeoutReadsBack(c: Config)
    ensures Decimal.ParseInt(BaseEnv(c)[ApiTimeoutKey]) == Some(if c.apiTimeoutMs.Some? then c.apiTimeoutMs.value else DefaultTimeoutMs)
  {
    Decimal.ParseIntOfIntToString(Coalesce(c.apiTimeoutMs, DefaultTimeoutMs));
  }

  /** The token is the API key unless that is missing or empty, so it is never
      empty; the direct API key is always blanked; the proxy bypass and the
      two suppression flags are fixed. */
  lemma CredentialsAndFlags(c: Config)
    ensures BaseEnv(c)[AuthTokenKey] == (if TruthyString(c.apiKey) then c.apiKey.value else DefaultAuthToken)
    ensures BaseEnv(c)[AuthTokenKey] != ""
    ensures BaseEnv(c)[ApiKeyKey] == ""
    ensures BaseEnv(c)[NoProxyKey] == "127.0.0.1"
    ensures BaseEnv(c)[DisableTelemetryKey] == "true" && BaseEnv(c)[DisableCostWarningsKey] == "true"
  {
    var token := OrString(c.apiKey, DefaultAuthToken);
    assert BaseEnv(c)[AuthTokenKey] == token;
  }

  /** The status-line command descriptor attached to the settings. */
  datatype StatusLine = StatusLine(kind: string, command: string, padding: int)

  const CcrStatusLine := StatusLine("command", "ccr statusline", 0)

  /** The object serialized into the `--settings` argument; a `None` status
      line is a key the serialized object does not have. */
  datatype SettingsFlag = SettingsFlag(env: map<string, string>, statusLine: Option<StatusLine>)

  /** The settings object as it stands when it is serialized. */
  function Settings(c: Config): (s: SettingsFlag)
    ensures s.env.Keys == BaseKeys
    ensures s.statusLine.Some? <==> StatusLineEnabled(c)
    ensures s.statusLine.Some? ==> s.statusLine.value == CcrStatusLine
  {
    SettingsFlag(BaseEnv(c), if StatusLineEnabled(c) then Some(CcrStatusLine) else None)
  }

  /** One element of the child's argument list: plain text, or the settings
      object in its serialized form (the JSON text itself is not modelled). */
  datatype Arg = Text(text: string) | SettingsJson(settings: SettingsFlag)

  const SettingsOption := "--settings"

  /** The caller's arguments followed by `--settings` and the serialized
      settings. */
  function LaunchArgs(args: seq<string>, settings: SettingsFlag): (r: seq<Arg>)
    ensures |r| == |args| + 2
    ensures forall i :: 0 <= i < |args| ==> r[i] == Text(args[i])
    ensures r[|args|] == Text(SettingsOption)
    ensures r[|args| + 1] == SettingsJson(settings)
  {
    seq(|args|, i requires 0 <= i < |args| => Text(args[i])) + [Text(SettingsOption), SettingsJson(settings)]
  }

  /** Reads a child argument list back into the caller's arguments and the
      settings, if it ends with a settings flag after plain text only. */
  function SplitLaunchArgs(r: seq<Arg>): Option<(seq<string>, SettingsFlag)> {
    if |r| >= 2 && r[|r| - 2] == Text(SettingsOption) && r[|r| - 1].SettingsJson?
       && forall i :: 0 <= i < |r| - 2 ==> r[i].Text?
    then Some((seq(|r| - 2, i requires 0 <= i < |r| - 2 => r[i].text), r[|r| - 1].settings))
    else None
  }

  /** The caller's arguments pass through unchanged and the settings are the
      only addition: splitting the child's argument list gives both back. */
  lemma SplitLaunchArgsInverse(args: seq<string>, settings: SettingsFlag)
    ensures SplitLaunchArgs(LaunchArgs(args, settings)) == Some((args, settings))
  {
    var r := LaunchArgs(args, settings);
    var back := seq(|r| - 2, i requires 0 <= i < |r| - 2 => r[i].text);
    assert back == args;
  }

  /** The keys assigned after the settings were serialized. */
  function AddedKeys(c: Config): set<string> {
    (if NonInteractive(c) then NonInteractiveKeys else {})
    + (if TruthyString(c.smallFastModel) then {SmallFastModelKey} else {})
  }

  /** The keys assigned after the settings were serialized, with their
      values: the non-interactive markers when that mode is on, and the
      small fast model when one is configured. */
  function Additions(c: Config): (added: map<string, string>)
    ensures added.Keys == AddedKeys(c)
    ensures NonInteractive(c) ==>
      && added[CiKey] == "true" && added[ForceColorKey] == "0"
      && added[NodeNoReadlineKey] == "1" && added[TermKey] == "dumb"
    ensures TruthyString(c.smallFastModel) ==> added[SmallFastModelKey] == c.smallFastModel.value
  {
    var markers :=
      if NonInteractive(c) then map[CiKey := "true", ForceColorKey := "0", NodeNoReadlineKey := "1", TermKey := "dumb"]
      else map[];
    if TruthyString(c.smallFastModel) then markers[SmallFastModelKey := c.smallFastModel.value] else markers
  }

  /** No added key is a base key, and the model key is not a marker. */
  lemma AddedKeysAreNew()
    ensures BaseKeys !! (NonInteractiveKeys + {SmallFastModelKey})
    ensures SmallFastModelKey !in NonInteractiveKeys
  {
  }

  /** The environment object as it stands at spawn time: assigning the added
      keys one by one onto the base environment. */
  function ChildEnv(c: Config): (env: map<string, string>)
    ensures env.Keys == BaseKeys + AddedKeys(c)
    ensures forall k :: k in Additions(c) ==> env[k] == Additions(c)[k]
    ensures forall k :: k in BaseKeys ==> env[k] == BaseEnv(c)[k]
  {
    AddedKeysAreNew();
    BaseEnv(c) + Additions(c)
  }

  /** Non-interactive mode sets its four markers with their values, and
      otherwise none of them is set. */
  lemma NonInteractiveMarkers(c: Config)
    ensures NonInteractive(c) ==>
      && ChildEnv(c)[CiKey] == "true" && ChildEnv(c)[ForceColorKey] == "0"
      && ChildEnv(c)[NodeNoReadlineKey] == "1" && ChildEnv(c)[TermKey] == "dumb"
    ensures !NonInteractive(c) ==> NonInteractiveKeys !! ChildEnv(c).Keys
  {
    AddedKeysAreNew();
  }

  /** The small fast model is set exactly when it is truthy, to its value. */
  lemma SmallFastModelSetWhenTruthy(c: Config)
    ensures SmallFastModelKey in ChildEnv(c) <==> TruthyString(c.smallFastModel)
    ensures SmallFastModelKey in ChildEnv(c) ==> ChildEnv(c)[SmallFastModelKey] == c.smallFastModel.value
  {
    AddedKeysAreNew();
  }

  /** The settings are a snapshot taken before the conditional keys: the
      serialized env never holds them, agrees with the spawn-time env on
      every key it has, and the two differ by exactly the added keys. */
  lemma SettingsEnvIsSnapshot(c: Config)
    ensures Settings(c).env.Keys !! (NonInteractiveKeys + {SmallFastModelKey})
    ensures forall k :: k in Settings(c).env ==> ChildEnv(c)[k] == Settings(c).env[k]
    ensures ChildEnv(c).Keys == Settings(c).env.Keys + AddedKeys(c)
    ensures ChildEnv(c) == Settings(c).env <==> AddedKeys(c) == {}
  {
    var base := Settings(c).env;
    AddedKeysAreNew();
    if AddedKeys(c) != {} {
      var k :| k in AddedKeys(c);
      assert k in ChildEnv(c) && k !in base;
    }
  }

  /** `{ ...process.env, ...env }`: the parent environment overridden key by
      key by the launcher's environment. */
  function SpawnEnv(parentEnv: map<string, string>, c: Config): (env: map<string, string>)
    ensures env.Keys == parentEnv.Keys + ChildEnv(c).Keys
    ensures forall k :: k in ChildEnv(c) ==> env[k] == ChildEnv(c)[k]
    ensures forall k :: k in parentEnv && k !in ChildEnv(c) ==> env[k] == parentEnv[k]
  {
    parentEnv + ChildEnv(c)
  }

  /** Whatever the parent environment holds, the child sees a blank direct
      API key, the launcher's token and base URL; outside non-interactive
      mode it inherits the parent's value of each of the four markers. */
  lemma SpawnEnvMasksParent(parentEnv: map<string, string>, c: Config)
    ensures SpawnEnv(parentEnv, c)[ApiKeyKey] == ""
    ensures SpawnEnv(parentEnv, c)[AuthTokenKey] == BaseEnv(c)[AuthTokenKey]
    ensures SpawnEnv(parentEnv, c)[BaseUrlKey] == BaseEnv(c)[BaseUrlKey]
    ensures !NonInteractive(c) && TermKey in parentEnv ==> SpawnEnv(parentEnv, c)[TermKey] == parentEnv[TermKey]
    ensures !NonInteractive(c) ==>
      forall k :: k in NonInteractiveKeys && k in parentEnv ==> SpawnEnv(parentEnv, c)[k] == parentEnv[k]
  {
    NonInteractiveMarkers(c);
  }

  /** The executable candidates in priority order; a missing one is empty. */
  function PathCandidates(c: Config, parentEnv: map<string, string>): seq<string> {
    [ if c.claudePath.Some? then c.claudePath.value else "",
      if ClaudePathKey in parentEnv then parentEnv[ClaudePathKey] else "",
      DefaultExecutable ]
  }

  /** `config?.CLAUDE_PATH || process.env.CLAUDE_PATH || "claude"`: the first
      non-empty candidate, so never empty. */
  function ExecutablePath(c: Config, parentEnv: map<string, string>): (path: string)
    ensures path != ""
    ensures exists i :: 0 <= i < 3 && PathCandidates(c, parentEnv)[i] == path
                     && (forall j :: 0 <= j < i ==> PathCandidates(c, parentEnv)[j] == "")
  {
    var fromEnv := if ClaudePathKey in parentEnv then Some(parentEnv[ClaudePathKey]) else None;
    var path := OrString(c.claudePath, OrString(fromEnv, DefaultExecutable));
    var cands := PathCandidates(c, parentEnv);
    if cands[0] != "" then
      assert path == cands[0]; path
    else if cands[1] != "" then
      assert path == cands[1] && forall j :: 0 <= j < 1 ==> cands[j] == ""; path
    else
      assert path == cands[2] && forall j :: 0 <= j < 2 ==> cands[j] == ""; path
  }

  datatype StreamMode = Pipe | Inherit

  /** Node's `stdio` option: one mode for all three streams, or one each. */
  datatype StdioOption = Shared(mode: StreamMode) | PerStream(stdin: StreamMode, stdout: StreamMode, stderr: StreamMode)

  /** The mode the option gives file descriptor `fd`. */
  function ModeOf(o: StdioOption, fd: nat): StreamMode
    requires fd < 3
  {
    match o
    case Shared(m) => m
    case PerStream(i, out, err) => if fd == 0 then i else if fd == 1 then out else err
  }

  /** Non-interactive mode pipes standard input (so it can be closed) and
      inherits the other two; otherwise everything is inherited. */
  function Stdio(c: Config): (o: StdioOption)
    ensures ModeOf(o, 0) == Pipe <==> NonInteractive(c)
    ensures ModeOf(o, 1) == Inherit && ModeOf(o, 2) == Inherit
    ensures !NonInteractive(c) ==> o == Shared(Inherit)
  {
    if NonInteractive(c) then PerStream(Pipe, Inherit, Inherit) else Shared(Inherit)
  }

  /** Everything the launcher decides before it touches the system. */
  datatype Plan = Plan(
    settings: SettingsFlag,
    args: seq<Arg>,
    env: map<string, string>,
    executable: string,
    stdio: StdioOption,
    endStdin: bool)

  /** The plan is assembled from the pieces above, so each of them carries
      its own guarantees into it. */
  function MakePlan(c: Config, args: seq<string>, parentEnv: map<string, string>): (p: Plan)
    ensures p.settings == Settings(c) && p.args == LaunchArgs(args, Settings(c))
    ensures p.env == SpawnEnv(parentEnv, c)
    ensures p.executable == ExecutablePath(c, parentEnv)
    ensures p.stdio == Stdio(c)
    ensures SplitLaunchArgs(p.args) == Some((args, p.settings))
    ensures p.settings.env.Keys == BaseKeys
    ensures forall k :: k in p.settings.env ==> k in p.env && p.env[k] == p.settings.env[k]
    ensures p.executable != ""
    ensures p.endStdin <==> NonInteractive(c)
    ensures p.endStdin <==> ModeOf(p.stdio, 0) == Pipe
  {
    SplitLaunchArgsInverse(args, Settings(c));
    SettingsEnvIsSnapshot(c);
    Plan(Settings(c), LaunchArgs(args, Settings(c)), SpawnEnv(parentEnv, c),
         ExecutablePath(c, parentEnv), Stdio(c), NonInteractive(c))
  }
}

=== FILE: lifecycle.dfy ===
/** The launcher's run once the plan is made: it takes a reference on the
    router service, looks the executable up, spawns it, and ends the parent
    process on whichever terminal event comes first. The system calls are
    abstracted to the `Outcome` they produce; what remains is the sequence of
    effects the launcher performs, the reference count those effects leave
    behind and the exit code of the parent, if it exits at all. */
module Lifecycle {
  import opened Js
  import opened LaunchPlan

  /** How the launch ends: the lookup of the executable fails, `spawn`
      throws before it returns (an error Node does not defer to the `error`
      event, such as an argument list too long for the system), the spawned
      child reports an error, or the child closes with a code (`None` when it
      was ended by a signal). A throw leaves the function before any handler
      is registered, so the invocation's promise rejects. */
  datatype Outcome = NotFound | SpawnThrows | SpawnError | Closed(code: Option<int>)

  /** What the launcher does to the outside world, in order. */
  datatype Effect =
    | Increment             // take a reference on the router service
    | Lookup(path: string)  // `command -v <path>`
    | Decrement             // release the reference
    | Spawn(path: string)
    | EndStdin              // end the child's piped standard input
    | CloseService          // best-effort shutdown of the router service
    | Exit(code: int)       // `process.exit(code)`

  /** `process.exit` status: 1 for both reported failures, else
      `code || 0`; `None` when the parent is not exited because `spawn`
      threw. */
  function ExitCode(o: Outcome): (status: Option<int>)
    ensures status == None <==> o.SpawnThrows?
    ensures status == Some(0) <==> o.Closed? && !TruthyNumber(o.code)
    ensures o.Closed? && TruthyNumber(o.code) ==> status == Some(o.code.value)
    ensures o.NotFound? || o.SpawnError? ==> status == Some(1)
  {
    match o
    case NotFound => Some(1)
    case SpawnThrows => None
    case SpawnError => Some(1)
    case Closed(code) => Some(OrNumber(code, 0))
  }

  /** The effects of one launch. The reference is taken first, before the
      lookup; when the executable is found `spawn` is called right after the
      lookup, and never otherwise; a piped standard input is ended right
      after `spawn` returns, before any event; a close gives the reference
      back before it shuts the service down; the run ends in the exit
      `ExitCode` gives and exits nowhere earlier, and when `spawn` throws it
      stops at the spawn without an exit. */
  function Run(p: Plan, o: Outcome): (t: seq<Effect>)
    ensures |t| >= 3
    ensures t[0] == Increment && t[1] == Lookup(p.executable)
    ensures !o.NotFound? ==> t[2] == Spawn(p.executable)
    ensures o.NotFound? ==> forall e :: e in t ==> !e.Spawn?
    ensures forall i :: 0 <= i < |t| && t[i].Spawn? ==> i == 2
    ensures forall i :: 0 <= i < |t| && t[i].Lookup? ==> i == 1
    ensures p.endStdin && (o.SpawnError? || o.Closed?) ==> |t| > 4 && t[3] == EndStdin
    ensures o.Closed? ==> t[|t| - 3] == Decrement && t[|t| - 2] == CloseService
    ensures ExitCode(o).Some? ==> t[|t| - 1] == Exit(ExitCode(o).value)
    ensures ExitCode(o).None? ==> |t| == 3
    ensures forall i :: 0 <= i < |t| - 1 ==> !t[i].Exit?
  {
    var path := p.executable;
    match o
    case NotFound =>
      [Increment, Lookup(path), Decrement, Exit(1)]
    case SpawnThrows =>
      [Increment, Lookup(path), Spawn(path)]
    case SpawnError =>
      if p.endStdin then
        [Increment, Lookup(path), Spawn(path), EndStdin, Decrement, Exit(1)]
      else
        [Increment, Lookup(path), Spawn(path), Decrement, Exit(1)]
    case Closed(_) =>
      if p.endStdin then
        [Increment, Lookup(path), Spawn(path), EndStdin, Decrement, CloseService, Exit(ExitCode(o).value)]
      else
        [Increment, Lookup(path), Spawn(path), Decrement, CloseService, Exit(ExitCode(o).value)]
  }

  /** The reference count after one effect. */
  function Step(count: int, e: Effect): int {
    match e
    case Increment => count + 1
    case Decrement => count - 1
    case _ => count
  }

  /** The reference count after a sequence of effects. */
  function Apply(count: int, effects: seq<Effect>): int
    decreases |effects|
  {
    if effects == [] then count else Apply(Step(count, effects[0]), effects[1..])
  }

  /** The count after any effects is the start plus the increments minus the
      decrements among them. */
  lemma {:induction false} ApplyCountsReferences(count: int, effects: seq<Effect>)
    ensures Apply(count, effects) == count + multiset(effects)[Increment] - multiset(effects)[Decrement]
    decreases |effects|
  {
    if effects != [] {
      ApplyCountsReferences(Step(count, effects[0]), effects[1..]);
      assert effects == [effects[0]] + effects[1..];
      assert multiset(effects) == multiset([effects[0]]) + multiset(effects[1..]);
    }
  }

  /** The contents of every run: exactly one increment occurs, and exactly
      one decrement unless `spawn` threw, in which case none does; `spawn`
      is called once when the executable was found and never otherwise;
      standard input is ended exactly when `spawn` was called in
      non-interactive mode and returned; the service is closed only
      after a normal close. */
  lemma RunContents(p: Plan, o: Outcome)
    ensures multiset(Run(p, o))[Increment] == 1
    ensures multiset(Run(p, o))[Decrement] == (if o.SpawnThrows? then 0 else 1)
    ensures multiset(Run(p, o))[Spawn(p.executable)] == (if o.NotFound? then 0 else 1)
    ensures forall e :: e in Run(p, o) && e.Spawn? ==> e == Spawn(p.executable)
    ensures EndStdin in Run(p, o) <==> p.endStdin && (o.SpawnError? || o.Closed?)
    ensures CloseService in Run(p, o) <==> o.Closed?
  {
    var t := Run(p, o);
    var x := p.executable;
    match o
    case NotFound =>
      assert t == [Increment, Lookup(x), Decrement, Exit(1)];
      assert multiset(t) == multiset{Increment, Lookup(x), Decrement, Exit(1)};
    case SpawnThrows =>
      assert t == [Increment, Lookup(x), Spawn(x)];
      assert multiset(t) == multiset{Increment, Lookup(x), Spawn(x)};
    case SpawnError =>
      if p.endStdin {
        assert t == [Increment, Lookup(x), Spawn(x), EndStdin, Decrement, Exit(1)];
        assert multiset(t) == multiset{Increment, Lookup(x), Spawn(x), EndStdin, Decrement, Exit(1)};
      } else {
        assert t == [Increment, Lookup(x), Spawn(x), Decrement, Exit(1)];
        assert multiset(t) == multiset{Increment, Lookup(x), Spawn(x), Decrement, Exit(1)};
      }
    case Closed(_) =>
      if p.endStdin {
        assert t == [Increment, Lookup(x), Spawn(x), EndStdin, Decrement, CloseService, Exit(ExitCode(o).value)];
        assert multiset(t) == multiset{Increment, Lookup(x), Spawn(x), EndStdin, Decrement, CloseService, Exit(ExitCode(o).value)};
      } else {
        assert t == [Increment, Lookup(x), Spawn(x), Decrement, CloseService, Exit(ExitCode(o).value)];
        assert multiset(t) == multiset{Increment, Lookup(x), Spawn(x), Decrement, CloseService, Exit(ExitCode(o).value)};
      }
  }

  /** Every path that exits gives back the reference it took, and a throw
      from `spawn` keeps it: the count ends where it started (one above it
      after a throw), never drops below the start on the way, and is one
      above the start when `spawn` is called. After a close the reference
      is already given back when the service is shut down, so the shutdown
      sees the count the launcher started from. */
  lemma ReferenceCountBalanced(p: Plan, o: Outcome, count: int)
    ensures Apply(count, Run(p, o)) == (if o.SpawnThrows? then count + 1 else count)
    ensures forall i :: 0 <= i <= |Run(p, o)| ==> Apply(count, Run(p, o)[..i]) >= count
    ensures !o.NotFound? ==> Run(p, o)[2].Spawn? && Apply(count, Run(p, o)[..2]) == count + 1
    ensures o.Closed? ==>
      && Run(p, o)[|Run(p, o)| - 2] == CloseService
      && Apply(count, Run(p, o)[..|Run(p, o)| - 2]) == count
  {
    RunContents(p, o);
    PairedTraceBalanced(count, Run(p, o));
    if o.Closed? {
      ReleasedBeforeShutdown(p, o, count);
    }
  }

  /** After a close, everything before the service shutdown already brings
      the count back to its start. */
  lemma ReleasedBeforeShutdown(p: Plan, o: Outcome, count: int)
    requires o.Closed?
    ensures Run(p, o)[|Run(p, o)| - 2] == CloseService
    ensures Apply(count, Run(p, o)[..|Run(p, o)| - 2]) == count
  {
    var t := Run(p, o);
    var x := p.executable;
    if p.endStdin {
      assert t[..|t| - 2] == [Increment, Lookup(x), Spawn(x), EndStdin, Decrement];
    } else {
      assert t[..|t| - 2] == [Increment, Lookup(x), Spawn(x), Decrement];
    }
    ApplyCountsReferences(count, t[..|t| - 2]);
  }

  /** Any effect sequence that opens with the increment followed by
      something other than the decrement, and holds one increment and at
      most one decrement, ends one above the start less its decrements, never
      drops below the start, and holds the reference after its first two
      effects. */
  lemma PairedTraceBalanced(count: int, t: seq<Effect>)
    requires |t| >= 2 && t[0] == Increment && !t[1].Decrement?
    requires multiset(t)[Increment] == 1 && multiset(t)[Decrement] <= 1
    ensures Apply(count, t) == count + 1 - multiset(t)[Decrement]
    ensures forall i :: 0 <= i <= |t| ==> Apply(count, t[..i]) >= count
    ensures Apply(count, t[..2]) == count + 1
  {
    ApplyCountsReferences(count, t);
    forall i | 0 <= i <= |t|
      ensures Apply(count, t[..i]) >= count
    {
      PrefixCounts(count, t, i);
    }
    PrefixCounts(count, t, 2);
    assert t[..2] == [t[0], t[1]];
    assert multiset(t[..2])[Decrement] == 0;
  }

  /** The count on a prefix of a run: the increment at the head is counted
      as soon as the prefix is non-empty, and at most one decrement is. */
  lemma PrefixCounts(count: int, t: seq<Effect>, i: nat)
    requires 0 < |t| && t[0] == Increment && i <= |t|
    requires multiset(t)[Increment] == 1 && multiset(t)[Decrement] <= 1
    ensures i == 0 ==> Apply(count, t[..i]) == count
    ensures i > 0 ==> Apply(count, t[..i]) == count + 1 - multiset(t[..i])[Decrement]
    ensures multiset(t[..i])[Decrement] <= 1
  {
    ApplyCountsReferences(count, t[..i]);
    assert t == t[..i] + t[i..];
    assert multiset(t) == multiset(t[..i]) + multiset(t[i..]);
    if i > 0 {
      assert t[..i][0] == Increment;
      assert multiset(t[..i])[Increment] >= 1;
    } else {
      assert t[..i] == [];
    }
  }

  /** The end state of one invocation of the `code` command. */
  datatype Termination = Termination(plan: Plan, effects: seq<Effect>, referenceCount: int, exitCode: Option<int>)

  /** Runs the whole command: makes the plan from the configuration, the
      caller's arguments and the parent environment, then performs the
      effects the outcome dictates, starting from reference count
      `referenceCount`. The count it reports is the one its effects leave,
      which is the start again on every path that exits. */
  function ExecuteCodeCommand(
    c: Config, args: seq<string>, parentEnv: map<string, string>,
    referenceCount: int, o: Outcome): (r: Termination)
    ensures r.effects == Run(r.plan, o) && r.exitCode == ExitCode(o)
    ensures r.referenceCount == Apply(referenceCount, r.effects)
    ensures r.referenceCount == (if o.SpawnThrows? then referenceCount + 1 else referenceCount)
    ensures forall i :: 0 <= i <= |r.effects| ==> Apply(referenceCount, r.effects[..i]) >= referenceCount
    ensures |r.effects| >= 3
    ensures r.exitCode.Some? ==> r.effects[|r.effects| - 1] == Exit(r.exitCode.value)
    ensures r.exitCode == Some(1) <==> o.NotFound? || o.SpawnError? || o == Closed(Some(1))
    ensures o.Closed? ==> r.exitCode == Some(if o.code.Some? then o.code.value else 0)
    ensures multiset(r.effects)[Spawn(r.plan.executable)] == (if o.NotFound? then 0 else 1)
    ensures SplitLaunchArgs(r.plan.args) == Some((args, Settings(c)))
    ensures r.plan == MakePlan(c, args, parentEnv)
  {
    var plan := MakePlan(c, args, parentEnv);
    var effects := Run(plan, o);
    RunContents(plan, o);
    ReferenceCountBalanced(plan, o, referenceCount);
    var r := Termination(plan, effects, Apply(referenceCount, effects), ExitCode(o));
    assert r.plan == plan && r.effects == effects && r.exitCode == ExitCode(o);
    r
  }
}
